=== FILE: README.md ===
# Theremin core in Dafny

The repository is a Raspberry Pi theremin. An ultrasonic sensor measures the distance
of a hand, and the distance becomes sound in one of two ways:

- `therepi.py` maps the distance to a note of the A minor scale and sends MIDI
  `note_on` / `note_off` messages. A note is turned off when it changes or when the hand
  leaves the range.
- `pi_sender.py` maps the distance to a frequency between 220 and 440 Hz. It writes one
  text line `"{freq:.2f}\n"` per reading to a TCP stream. `sound_server.py` reads that
  stream, cuts it into lines, strips each line, parses it and plays a tone for it.

This project models the pure logic inside those loops and proves its properties:

| module | file | models |
|---|---|---|
| `Wrappers` | wrappers.dfy | `Option` and `Result` |
| `Numeric` | numeric.dfy | Python's `int()` on a float (truncation toward zero); round-half-to-even, which is what `format(x, '.2f')` does with the exact value |
| `Bytes` | bytes.dfy | bytes, `bytes.strip()`, searching for the newline byte |
| `ScaleMapper` | scale_mapper.dfy | `map_distance_to_scale`, including the two exceptions it can raise |
| `NoteMachine` | note_machine.dfy | the note on/off transition of `main` in therepi.py, runs of it, the receiver's view of the event stream |
| `Framing` | framing.dfy | the receive / buffer / split / strip / parse loop of sound_server.py |
| `Frequency` | frequency.dfy | `map_distance_to_frequency` |
| `WireFormat` | wire_format.dfy | the `.2f` text of a frequency and a reader for exactly that format |
| `Sender` | sender.dfy | the line the sender writes for each reading, and the stream of those lines |
| `RoundTrip` | round_trip.dfy | sender against receiver: any chunking of the sender's stream plays exactly the sent values |

Floats are modelled as `real`. Where Python's float semantics matter, they are written out:
truncation in `int()`, half-to-even rounding in `.2f`, and a leading `-` for negative
values. The receiver's `float(line.decode('ascii'))` is a parameter
`parse: seq<byte> -> Option<V>`. `None` stands for the `ValueError` that makes the server
print "Bad data" and continue; that also covers `UnicodeDecodeError`, which is a
`ValueError`. For the round trip the model uses a concrete reader of the `[-]D+.DD` format
that counts hundredths of a hertz (`WireFormat.ParseFixed2`). A second version of the round
trip holds for any real-valued parser that agrees with that reader on such texts, as
`float()` does: the reader accepts exactly the `[-]D+.DD` texts and reads each as its decimal
value in hundredths (`WireFormat.ParseFixed2` with `WireFormat.ParseFixed2Reads`).

Behaviour of the code that the model keeps, as written:

- `map_distance_to_scale` truncates the scaled position with `int()`; it does not round.
- It does not clamp: a reading outside 15–70 cm gives `None` and never a note at the
  boundary.
- Velocity is always 127. There is no smoothing, hysteresis or pitch bend.
- Leaving the program with Ctrl-C sends no final `note_off`.

## Model

| member | source | states |
|---|---|---|
| ScaleMapper.MapDistanceToScale | therepi.py:53-62 | `None` exactly when the distance is outside `[in_min, in_max]` (both ends inclusive); `ZeroDivisionError` exactly when `in_min == in_max ==` distance; `IndexError` exactly for an in-range distance and an empty scale; otherwise the truncated index lies in `[0, len(scale)-1]` and the note is that scale element, so any note returned is a member of the scale |
| ScaleMapper.PyIndex | therepi.py:62 | Python indexing succeeds exactly for `-len <= i < len`, agrees with ordinary indexing for non-negative `i`, and always yields an element of the list |
| ScaleMapper.ScaleIndexBounds | therepi.py:61 | for `in_min < in_max`, an in-range distance and a non-empty scale, the truncated index is a valid index |
| ScaleMapper.Endpoints | therepi.py:61-62 | the distance `in_min` gives the first note of the scale and `in_max` the last |
| ScaleMapper.ScaleIndexMonotone | therepi.py:61 | the index never decreases as the distance grows |
| ScaleMapper.NoteMonotone | therepi.py:22 | over an ascending scale, the note never decreases as an in-range distance grows |
| ScaleMapper.DefaultNote | therepi.py:17-22 | with the default range 15–70 cm and A minor, the mapping never raises; it is `None` exactly outside the range and otherwise a note of A minor |
| ScaleMapper.DefaultNoteMonotone | therepi.py:22 | under the defaults, the note never decreases as the distance grows within the range |
| NoteMachine.Step | therepi.py:77-89 | the state becomes the mapped note; a repeated note sends nothing; an out-of-range reading sends one `NoteOff` for the sounding note, or nothing when silent; a new note sends `NoteOff(old)` then `NoteOn(new, 127)`, or only the `NoteOn` from silence |
| NoteMachine.StepWellFormed | therepi.py:77-89 | the events of one step take a receiver that is in the old state to the new one, through a well-formed stream |
| NoteMachine.RunAppend | therepi.py:72-89 | running two stretches of readings one after the other is the same as running their concatenation |
| NoteMachine.Run | therepi.py:72-89 | the loop over a sequence of readings: after it, `last_note` is the last reading's note (the starting state when there are no readings) |
| NoteMachine.ReplayAppend | therepi.py:69-89 | the receiver's view of a concatenated event stream is its view of the second part after the first |
| NoteMachine.RunWellFormed | therepi.py:69-89 | trace invariant: every `NoteOff` names the note of the most recent unmatched `NoteOn`, no `NoteOn` is sent while a note sounds (at most one note at a time), every `NoteOn` has velocity 127, and after the run the sounding note is the final `last_note` |
| NoteMachine.HeldNoteIsSilent | therepi.py:85 | readings equal to the sounding note send no events and keep the state |
| NoteMachine.IdenticalNotesOneNoteOn | therepi.py:85-89 | a run of one note from any other state sends exactly one `NoteOn` for it, preceded by the `NoteOff` of the previous note if there was one |
| NoteMachine.OutOfRangeOneNoteOff | therepi.py:77-82 | leaving the range while sounding sends exactly one `NoteOff`, and nothing more however long the hand stays away |
| NoteMachine.SilentStaysSilent | therepi.py:79 | out-of-range readings while silent send nothing |
| NoteMachine.CountNoteOnsAppend | therepi.py:88 | the number of `NoteOn` events of a concatenation is the sum of the parts' numbers |
| NoteMachine.NoteOnsCountOnsets | therepi.py:85-88 | a run sends exactly one `NoteOn` per reading whose in-range note differs from the note of the reading before it |
| NoteMachine.MainLoop | therepi.py:69-89 | starting silent, the loop over a finite sequence of readings sends a well-formed event stream and ends with `last_note` equal to the last reading's note |
| NoteMachine.MapNotesAppend | therepi.py:73-74 | mapping a concatenation of readings is the concatenation of their mappings |
| NoteMachine.Scenario | therepi.py:61-89 | readings 20, 20, 20, 45, 45 cm send exactly `NoteOn(57, 127)`, `NoteOff(57)`, `NoteOn(62, 127)` |
| Bytes.IndexOf | sound_server.py:73-74 | the position of the first newline: the newline is there and nowhere before it |
| Bytes.Strip | sound_server.py:75 | the stripped line is no longer than the line and neither starts nor ends with whitespace |
| Bytes.StripCutsWhitespace | sound_server.py:75-76 | stripping removes whitespace only, and only from the two ends; a line strips to nothing exactly when it is all whitespace |
| Bytes.StripNoSpace | sound_server.py:75 | a line without whitespace strips to itself |
| Framing.SplitLines | sound_server.py:72-74 | after the inner loop no newline is left in the buffer and none is inside a line; joining the lines, each followed by its newline, and then the buffer gives back exactly the bytes that came in |
| Framing.SplitJoin | sound_server.py:73-74 | splitting is the inverse of joining: newline-free lines and a newline-free remainder split back into exactly those lines and that remainder |
| Framing.FirstLineSplit | sound_server.py:74 | each split removes exactly the prefix up to and including the first newline |
| Framing.SplitAppend | sound_server.py:72-74 | the lines of a concatenation are those of the first part, then those of the first part's remainder followed by the second part |
| Framing.JoinAppend | sound_server.py:72-74 | joining concatenated line lists concatenates the joined bytes |
| Framing.Dispatch | sound_server.py:75-84 | a line is skipped exactly when it strips to nothing; it is played exactly when its stripped text parses, with the parsed value; otherwise it is discarded as bad data with its stripped text |
| Framing.DispatchAll | sound_server.py:73-84 | the complete lines yield exactly one action each, except lines that strip to nothing, which yield none |
| Framing.DispatchAllAppend | sound_server.py:73-84 | lines are handled one after another in arrival order |
| Framing.BadLineContinues | sound_server.py:78-82 | a line that fails to parse yields one diagnostic, and the lines before and after it are handled as if it were not there |
| Framing.BlankLineSkipped | sound_server.py:75-77 | a blank or all-whitespace line yields no tone and no diagnostic |
| Framing.PlayedAppend | sound_server.py:84 | the tones of concatenated actions are the concatenated tones |
| Framing.EveryParsedLinePlayed | sound_server.py:79-84 | when every line's stripped text parses, the tones played are exactly the parsed values, one per line, in order |
| Framing.Feed | sound_server.py:72-84 | after a chunk the buffer holds no newline, and the actions are those of the complete lines that the old buffer and the chunk form in front of it |
| Framing.SplitFirstLine | sound_server.py:73-84 | one turn of the inner loop handles the first line and leaves the rest of the buffer to the later turns |
| Framing.FeedLoop | sound_server.py:72-84 | the inner `while b'\n' in buffer` loop computes exactly the actions and remainder of `Feed`, leaving no newline in the buffer |
| Framing.Session | sound_server.py:66-86 | the receive loop over a sequence of receive outcomes: it ends closed exactly when an empty chunk arrived, and a buffer without a newline stays without one |
| Framing.SessionFramesConcatenation | sound_server.py:66-86 | while the client stays connected, the actions and the buffer depend only on the concatenation of the received bytes, not on where the chunk boundaries fell or where timeouts came |
| Framing.SessionOfLines | sound_server.py:66-86 | whole lines, chunked in any way, are each handled once, in order, and leave an empty buffer and an open connection |
| Framing.ChunkBoundariesIrrelevant | sound_server.py:66-86 | two deliveries of the same bytes give the same session outcome |
| Framing.DisconnectEndsSession | sound_server.py:69-71 | an empty chunk ends the session: nothing received after it has any effect |
| Framing.ServeStep | sound_server.py:68-86 | a timeout leaves the buffer unchanged and the loop continues; an empty chunk closes the session and keeps what was done; a data chunk adds its actions and carries its remainder forward |
| Framing.Serve | sound_server.py:65-86 | the receive loop computes the session outcome for the receive results given, and never leaves a newline in the buffer |
| Frequency.Clamp | pi_sender.py:47 | the clamped distance lies in 15–70 cm, equals the distance inside that range, and is the nearer end outside it |
| Frequency.DistanceToFrequency | pi_sender.py:45-49 | the frequency always lies in 220–440 Hz; any distance `<= 15` gives 220 and any `>= 70` gives 440 |
| Frequency.InRangeIsLinear | pi_sender.py:48-49 | within the range the frequency is the linear interpolation 220 + 4 · (distance − 15) |
| Frequency.ClampInvariant | pi_sender.py:47-49 | the frequency depends only on the clamped distance |
| Frequency.Monotone | pi_sender.py:47-49 | the frequency never decreases as the distance grows |
| Frequency.StrictlyMonotoneInRange | pi_sender.py:47-49 | inside the range, different distances give different frequencies |
| Numeric.Trunc | therepi.py:61 | `int()` of a float: the integer toward zero, within one of the value, never negative for a non-negative value |
| Numeric.RoundHalfEven | pi_sender.py:63 | the nearest integer, an even one on a tie, never negative for a non-negative value |
| WireFormat.NatDigits | pi_sender.py:63 | the decimal digits of a natural number denote it and have no leading zero |
| WireFormat.Hundredths | pi_sender.py:63 | the value the `.2f` text denotes is within half a hundredth of the frequency and has its sign |
| WireFormat.FormatFixed2 | pi_sender.py:63 | the `.2f` text has at least four bytes, holds only digits, the dot and a minus sign, and starts with the minus exactly for negative values |
| WireFormat.ParseFixed2 | sound_server.py:79 | the reader that stands in for `float(line.decode('ascii'))` on the sender's lines accepts only `[-]D+.DD`: digits, then a dot third from the end, then two digits, after an optional minus sign; a negative value always has the minus sign, and a minus sign never gives a positive value; `ParseFixed2Reads` gives the converse, that every `[-]D+.DD` text is accepted with its decimal value in hundredths |
| WireFormat.UnsignedReads | sound_server.py:79 | every text of one or more digits, a dot and two digits is read, as its decimal value in hundredths (`007.50` reads as 750) |
| WireFormat.ParseFixed2Reads | sound_server.py:79 | the converse of the accepted shape: every `[-]D+.DD` text is accepted and reads as its decimal value in hundredths, negated after a minus sign (`-0.00` reads as 0) |
| WireFormat.SignedReads | sound_server.py:79 | an unsigned fixed-point text reads as its value, and with a minus sign in front as that value negated |
| WireFormat.ParseUnsignedText | pi_sender.py:63 | the text of a count of hundredths reads back as that count |
| WireFormat.ParseFormat | pi_sender.py:63 | reading the `.2f` text back gives exactly the rounded value it was written from |
| WireFormat.FormatIsStripped | pi_sender.py:63 | the `.2f` text contains no whitespace and no newline, so the receiver's strip leaves it unchanged |
| Sender.SentHundredths | pi_sender.py:61-63 | the value a line carries lies in 22000–44000 hundredths and within half a hundredth of the computed frequency |
| Sender.Line | pi_sender.py:63 | each reading writes exactly one line of seven bytes: `DDD.DD` followed by a single newline |
| Sender.SendAll | pi_sender.py:59-64 | the sender's stream for a sequence of readings is its lines joined by newlines, seven bytes per reading |
| RoundTrip.LineRoundTrip | pi_sender.py:63 | one line from the sender, fed to an empty receive buffer, is one tone of the sent hundredths and leaves the buffer empty |
| RoundTrip.TextParses | pi_sender.py:63 | the text of a line has no newline, strips to itself and reads back as the sent hundredths |
| RoundTrip.StreamSplits | sound_server.py:73-74 | the sender's stream splits back into exactly its line texts with nothing left over |
| RoundTrip.StreamRoundTrip | sound_server.py:65-86 | for any chunking of the sender's stream, with timeouts in between, the server plays exactly the sent values in order, keeps no partial line and stays connected |
| RoundTrip.PlayedSentFrequencies | sound_server.py:79-84 | with a parser that reads the fixed-point texts as `float()` does, the tones played are exactly the sent frequencies in hertz, in order |
| RoundTrip.StreamRoundTripReal | sound_server.py:79-84 | each tone played is within half a hundredth of a hertz of the frequency the sender computed |
| RoundTrip.SplitChunkScenario | sound_server.py:72-84 | the chunks `220.00\n23` and `0.00\n` play 220.00 and then 230.00 Hz |

## Left out

- `get_distance` in therepi.py and pi_sender.py, and all of Script.py. These are GPIO
  access, sleeps and clock reads, with busy-wait loops that have no timeout. The measured
  distance is an input of the model, and so is its `round(…, 2)`.
- midi_sender.py, midi_receiver.py, midi_player.py and midi_basic.py. They only connect
  MIDI ports and sockets and play MIDI files; they have no logic of their own.
- Sending the MIDI messages, the TCP socket, `makefile`, `flush` and the `print` calls.
  The model returns the events or bytes that would be sent.
- `play_tone` and `init_audio` of sound_server.py: sample synthesis with numpy and
  pygame. Playing a tone is modelled as appending its value to the output sequence.
- The server setup of sound_server.py (finding the local address, bind, listen, accept,
  signal handling). A receive outcome is given as input: bytes, an empty chunk, or a timeout.
- A receive error other than a timeout (for example `ConnectionResetError` from
  `conn.recv`). The `except socket.timeout` does not catch it, so it leaves `main` through
  the `finally` clause. The model has no outcome for it; `Serve` over the outcomes before
  the error covers what was already played.
- The `KeyboardInterrupt` and cleanup paths of all three programs. They only release
  resources.
- IEEE-754 floats and the full grammar of Python's `float()` (exponents, `inf`, `nan`,
  underscores). Values are `real`; the general parser is a parameter.
- The loops are modelled over finite sequences of readings and receive outcomes, while the
  programs run until interrupted.
- Bytes.Strip: its own contract only bounds the length and says the ends are not
  whitespace. The exact characterisation (which bytes are cut, and when the result is
  empty) is stated separately by Bytes.StripCutsWhitespace.
- Framing.Serve: states what the loop computes for a finite sequence of receive outcomes.
  A loop that never receives an empty chunk is cut off at the end of the sequence.

=== FILE: bytes.dfy ===
/** Byte strings as Python's `bytes`: the newline byte, ASCII whitespace as
    `bytes.strip()` understands it, and the search for a byte. */
module Bytes {

  type byte = b: int | 0 <= b < 256

  const Newline: byte := 10

  /** `bytes.isspace()` for one byte: space, \t, \n, \v, \f, \r. */
  predicate IsSpace(b: byte) {
    b == 32 || 9 <= b <= 13
  }

  /** The bytes of an ASCII string literal. */
  function Ascii(s: string): seq<byte>
    requires forall i :: 0 <= i < |s| ==> s[i] as int < 256
  {
    seq(|s|, i requires 0 <= i < |s| => s[i] as int as byte)
  }

  /** Position of the first occurrence of `b` in `s`. */
  function IndexOf(s: seq<byte>, b: byte): (i: nat)
    requires b in s
    ensures i < |s| && s[i] == b && b !in s[..i]
  {
    if s[0] == b then 0 else 1 + IndexOf(s[1..], b)
  }

  /** Number of leading whitespace bytes. */
  function LeadingSpace(s: seq<byte>): (n: nat)
    ensures n <= |s|
    ensures forall i :: 0 <= i < n ==> IsSpace(s[i])
    ensures n < |s| ==> !IsSpace(s[n])
  {
    if s == [] || !IsSpace(s[0]) then 0 else 1 + LeadingSpace(s[1..])
  }

  /** Number of trailing whitespace bytes. */
  function TrailingSpace(s: seq<byte>): (n: nat)
    ensures n <= |s|
    ensures forall i :: |s| - n <= i < |s| ==> IsSpace(s[i])
    ensures n < |s| ==> !IsSpace(s[|s| - n - 1])
  {
    if s == [] || !IsSpace(s[|s| - 1]) then 0 else 1 + TrailingSpace(s[..|s| - 1])
  }

  /** `bytes.strip()`: the slice left after removing whitespace from both ends. */
  function Strip(s: seq<byte>): (r: seq<byte>)
    ensures |r| <= |s|
    // what remains neither starts nor ends with whitespace
    ensures r != [] ==> !IsSpace(r[0]) && !IsSpace(r[|r| - 1])
  {
    var i := LeadingSpace(s);
    var t := s[i..];
    t[..|t| - TrailingSpace(t)]
  }

  /** Stripping cuts off only whitespace, from both ends, and leaves nothing exactly
      when the bytes are all whitespace. */
  lemma StripCutsWhitespace(s: seq<byte>)
    ensures exists i, j :: 0 <= i <= j <= |s| && Strip(s) == s[i..j]
              && (forall k :: 0 <= k < i ==> IsSpace(s[k]))
              && (forall k :: j <= k < |s| ==> IsSpace(s[k]))
    ensures Strip(s) == [] <==> forall k :: 0 <= k < |s| ==> IsSpace(s[k])
  {
    var i := LeadingSpace(s);
    var t := s[i..];
    var n := TrailingSpace(t);
    assert Strip(s) == s[i..|s| - n];
    if Strip(s) == [] {
      assert i == |s|;
    } else {
      assert s[i] == Strip(s)[0];
    }
  }

  /** Bytes without whitespace are their own strip. */
  lemma StripNoSpace(s: seq<byte>)
    requires forall k :: 0 <= k < |s| ==> !IsSpace(s[k])
    ensures Strip(s) == s
  {
  }
}

=== FILE: framing.dfy ===
/** sound_server.py, the receive loop of `main`: bytes from the connection are appended
    to a buffer; every complete newline-terminated line is split off, stripped, skipped
    if blank, parsed as a number, and either played or discarded. `play_tone` is modelled
    as a `Play` action appended to the output; the "Bad data" diagnostic as `Discard`.
    The number parser (`float(line.decode('ascii'))`) is a parameter: `None` stands for
    the `ValueError` it raises (a non-ASCII byte raises `UnicodeDecodeError`, which is a
    `ValueError` too). */
module Framing {
  import opened Wrappers
  import opened Bytes

  /** What the server does with one non-blank line. */
  datatype Action<V> = Play(value: V) | Discard(line: seq<byte>)

  /** Complete lines (without their newline) and the unterminated remainder. */
  datatype Split = Split(lines: seq<seq<byte>>, rest: seq<byte>)

  /** The bytes that a sequence of lines occupies on the wire: each one followed by a newline. */
  function Join(lines: seq<seq<byte>>): seq<byte>
    decreases |lines|
  {
    if lines == [] then [] else lines[0] + [Newline] + Join(lines[1..])
  }

  predicate NoNewlines(lines: seq<seq<byte>>) {
    forall i :: 0 <= i < |lines| ==> Newline !in lines[i]
  }

  /** Repeated `line, buffer = buffer.split(b'\n', 1)` while a newline remains. */
  function SplitLines(buf: seq<byte>): (r: Split)
    // no newline is left in the buffer and none is inside a line
    ensures Newline !in r.rest && NoNewlines(r.lines)
    // no byte is lost or duplicated
    ensures Join(r.lines) + r.rest == buf
    decreases |buf|
  {
    if Newline in buf then
      var i := IndexOf(buf, Newline);
      var tail := SplitLines(buf[i + 1..]);
      ConsLine(buf, i, tail);
      Split([buf[..i]] + tail.lines, tail.rest)
    else Split([], buf)
  }

  /** The newline-free line before the first newline, in front of the split of what follows. */
  lemma ConsLine(buf: seq<byte>, i: nat, tail: Split)
    requires i < |buf| && buf[i] == Newline && Newline !in buf[..i]
    requires Newline !in tail.rest && NoNewlines(tail.lines) && Join(tail.lines) + tail.rest == buf[i + 1..]
    ensures NoNewlines([buf[..i]] + tail.lines)
    ensures Join([buf[..i]] + tail.lines) + tail.rest == buf
  {
    var line, after := buf[..i], buf[i + 1..];
    JoinCons(line, tail.lines);
    assert buf == line + [Newline] + after;
    assert (line + [Newline] + Join(tail.lines)) + tail.rest == line + [Newline] + after;
  }

  lemma JoinCons(line: seq<byte>, lines: seq<seq<byte>>)
    requires Newline !in line && NoNewlines(lines)
    ensures Join([line] + lines) == line + [Newline] + Join(lines)
    ensures NoNewlines([line] + lines)
  {
    assert ([line] + lines)[1..] == lines;
  }

  lemma {:induction false} JoinAppend(a: seq<seq<byte>>, b: seq<seq<byte>>)
    ensures Join(a + b) == Join(a) + Join(b)
    decreases |a|
  {
    if a == [] {
      assert a + b == b;
    } else {
      assert (a + b)[0] == a[0];
      assert (a + b)[1..] == a[1..] + b;
      JoinAppend(a[1..], b);
    }
  }

  /** Splitting is the inverse of joining: newline-free lines followed by a newline-free
      remainder split back into exactly those lines and that remainder. */
  lemma {:induction false} SplitJoin(lines: seq<seq<byte>>, rest: seq<byte>)
    requires NoNewlines(lines) && Newline !in rest
    ensures SplitLines(Join(lines) + rest) == Split(lines, rest)
    decreases |lines|
  {
    if lines == [] {
      assert Join(lines) + rest == rest;
    } else {
      var l, more := lines[0], lines[1..];
      var after := Join(more) + rest;
      assert Join(lines) + rest == l + [Newline] + after;
      FirstLineSplit(l, after);
      SplitJoin(more, rest);
      assert [l] + more == lines;
    }
  }

  /** A newline-free line and a newline in front of a buffer split off as its first line. */
  lemma FirstLineSplit(l: seq<byte>, after: seq<byte>)
    requires Newline !in l
    ensures SplitLines(l + [Newline] + after)
         == Split([l] + SplitLines(after).lines, SplitLines(after).rest)
  {
    var buf := l + [Newline] + after;
    assert buf[..|l|] == l;
    assert buf[|l| + 1..] == after;
    IndexOfUnique(buf, |l|);
    SplitLinesUnfold(buf);
  }

  lemma IndexOfUnique(s: seq<byte>, i: nat)
    requires i < |s| && s[i] == Newline && Newline !in s[..i]
    ensures IndexOf(s, Newline) == i
  {
  }

  lemma NoNewlinesAppend(a: seq<seq<byte>>, b: seq<seq<byte>>)
    requires NoNewlines(a) && NoNewlines(b)
    ensures NoNewlines(a + b)
  {
    forall i | 0 <= i < |a + b|
      ensures Newline !in (a + b)[i]
    {
      if i < |a| {
        assert (a + b)[i] == a[i];
      } else {
        assert (a + b)[i] == b[i - |a|];
      }
    }
  }

  lemma AppendAssoc<T>(a: seq<T>, b: seq<T>, c: seq<T>)
    ensures a + (b + c) == (a + b) + c
  {
  }

  /** Regrouping the pieces of two consecutive framings. */
  lemma Regroup(a: seq<byte>, b: seq<byte>, j1: seq<byte>, r1: seq<byte>, j2: seq<byte>, r2: seq<byte>)
    requires a == j1 + r1 && r1 + b == j2 + r2
    ensures a + b == (j1 + j2) + r2
  {
    AppendAssoc(j1, r1, b);
    AppendAssoc(j1, j2, r2);
  }

  /** The lines of a concatenation are the lines of the first part followed by the lines
      of its remainder joined to the second part: framing does not care where a stream
      is cut. */
  lemma SplitAppend(a: seq<byte>, b: seq<byte>)
    ensures SplitLines(a + b).lines == SplitLines(a).lines + SplitLines(SplitLines(a).rest + b).lines
    ensures SplitLines(a + b).rest == SplitLines(SplitLines(a).rest + b).rest
  {
    var sa := SplitLines(a);
    var sb := SplitLines(sa.rest + b);
    JoinAppend(sa.lines, sb.lines);
    Regroup(a, b, Join(sa.lines), sa.rest, Join(sb.lines), sb.rest);
    NoNewlinesAppend(sa.lines, sb.lines);
    SplitJoin(sa.lines + sb.lines, sb.rest);
  }

  /** The handling of one complete line: `None` when it strips to nothing (a blank line
      is skipped without a diagnostic), otherwise the tone to play or the diagnostic. */
  function Dispatch<V>(line: seq<byte>, parse: seq<byte> -> Option<V>): (r: Option<Action<V>>)
    ensures r.None? <==> Strip(line) == []
    ensures r.Some? && r.value.Play? <==> Strip(line) != [] && parse(Strip(line)).Some?
    ensures r.Some? && r.value.Play? ==> parse(Strip(line)) == Some(r.value.value)
    ensures r.Some? && r.value.Discard? ==> r.value.line == Strip(line)
  {
    var s := Strip(line);
    if s == [] then None
    else match parse(s)
      case None => Some(Discard(s))
      case Some(v) => Some(Play(v))
  }

  /** The number of lines that do not strip to nothing. */
  function NonBlank(lines: seq<seq<byte>>): (n: nat)
    ensures n <= |lines|
    decreases |lines|
  {
    if lines == [] then 0 else (if Strip(lines[0]) == [] then 0 else 1) + NonBlank(lines[1..])
  }

  /** The actions for a sequence of complete lines, in arrival order. */
  function DispatchAll<V>(lines: seq<seq<byte>>, parse: seq<byte> -> Option<V>): (r: seq<Action<V>>)
    // exactly one action per line that does not strip to nothing
    ensures |r| == NonBlank(lines)
    decreases |lines|
  {
    if lines == [] then []
    else
      var rest := DispatchAll(lines[1..], parse);
      match Dispatch(lines[0], parse)
      case None => rest
      case Some(a) => [a] + rest
  }

  lemma DispatchAllCons<V>(line: seq<byte>, lines: seq<seq<byte>>, parse: seq<byte> -> Option<V>)
    ensures DispatchAll([line] + lines, parse)
         == (match Dispatch(line, parse) case None => [] case Some(a) => [a]) + DispatchAll(lines, parse)
  {
    assert ([line] + lines)[1..] == lines;
  }

  lemma {:induction false} DispatchAllAppend<V>(a: seq<seq<byte>>, b: seq<seq<byte>>, parse: seq<byte> -> Option<V>)
    ensures DispatchAll(a + b, parse) == DispatchAll(a, parse) + DispatchAll(b, parse)
    decreases |a|
  {
    if a == [] {
      assert a + b == b;
    } else {
      assert (a + b)[0] == a[0];
      assert (a + b)[1..] == a[1..] + b;
      DispatchAllAppend(a[1..], b, parse);
    }
  }

  /** A line that does not parse is reported and dropped, and the lines after it are
      handled as if it had not been there; a blank line leaves no trace at all. */
  lemma BadLineContinues<V>(before: seq<seq<byte>>, line: seq<byte>, after: seq<seq<byte>>,
                            parse: seq<byte> -> Option<V>)
    requires Strip(line) != [] && parse(Strip(line)).None?
    ensures DispatchAll(before + [line] + after, parse)
         == DispatchAll(before, parse) + [Discard(Strip(line))] + DispatchAll(after, parse)
  {
    DispatchAllAppend(before + [line], after, parse);
    DispatchAllAppend(before, [line], parse);
    DiscardOne(line, parse);
  }

  lemma DiscardOne<V>(line: seq<byte>, parse: seq<byte> -> Option<V>)
    requires Strip(line) != [] && parse(Strip(line)).None?
    ensures DispatchAll([line], parse) == [Discard(Strip(line))]
  {
    DispatchAllCons(line, [], parse);
    assert [line] + [] == [line];
  }

  lemma BlankLineSkipped<V>(before: seq<seq<byte>>, line: seq<byte>, after: seq<seq<byte>>,
                            parse: seq<byte> -> Option<V>)
    requires forall k :: 0 <= k < |line| ==> IsSpace(line[k])
    ensures DispatchAll(before + [line] + after, parse)
         == DispatchAll(before, parse) + DispatchAll(after, parse)
  {
    StripCutsWhitespace(line);
    DispatchAllAppend(before + [line], after, parse);
    DispatchAllAppend(before, [line], parse);
  }

  /** The tones played by a sequence of actions. */
  function Played<V>(actions: seq<Action<V>>): seq<V>
    decreases |actions|
  {
    if actions == [] then []
    else (if actions[0].Play? then [actions[0].value] else []) + Played(actions[1..])
  }

  lemma {:induction false} PlayedAppend<V>(a: seq<Action<V>>, b: seq<Action<V>>)
    ensures Played(a + b) == Played(a) + Played(b)
    decreases |a|
  {
    if a == [] {
      assert a + b == b;
    } else {
      assert (a + b)[0] == a[0];
      assert (a + b)[1..] == a[1..] + b;
      PlayedAppend(a[1..], b);
    }
  }

  /** Every line whose stripped text parses is played exactly once, in order: the tones
      played for lines whose stripped texts all parse are their parsed values. */
  lemma {:induction false} EveryParsedLinePlayed<V>(lines: seq<seq<byte>>, values: seq<V>,
                                                    parse: seq<byte> -> Option<V>)
    requires |values| == |lines|
    requires forall i :: 0 <= i < |lines| ==> Strip(lines[i]) != [] && parse(Strip(lines[i])) == Some(values[i])
    ensures Played(DispatchAll(lines, parse)) == values
    decreases |lines|
  {
    if lines != [] {
      EveryParsedLinePlayed(lines[1..], values[1..], parse);
      assert Dispatch(lines[0], parse) == Some(Play(values[0]));
      assert [values[0]] + values[1..] == values;
    }
  }

  /** What the server does with the buffer and one received chunk. */
  datatype FeedResult<V> = FeedResult(actions: seq<Action<V>>, rest: seq<byte>)

  /** `buffer += chunk` followed by the `while b'\n' in buffer` loop. */
  function Feed<V>(buffer: seq<byte>, chunk: seq<byte>, parse: seq<byte> -> Option<V>): (r: FeedResult<V>)
    ensures Newline !in r.rest
    ensures exists lines :: NoNewlines(lines) && buffer + chunk == Join(lines) + r.rest
                          && r.actions == DispatchAll(lines, parse)
  {
    var s := SplitLines(buffer + chunk);
    FeedResult(DispatchAll(s.lines, parse), s.rest)
  }

  /** Splitting off the first line leaves the remaining lines and the remainder to the rest
      of the buffer. */
  lemma SplitFirstLine<V>(buf: seq<byte>, parse: seq<byte> -> Option<V>)
    requires Newline in buf
    ensures var i := IndexOf(buf, Newline);
            var later := SplitLines(buf[i + 1..]);
            var s := Strip(buf[..i]);
            && DispatchAll(SplitLines(buf).lines, parse)
               == (if s == [] then [] else [match parse(s) case None => Discard(s) case Some(v) => Play(v)])
                  + DispatchAll(later.lines, parse)
            && SplitLines(buf).rest == later.rest
  {
    var i := IndexOf(buf, Newline);
    var line := buf[..i];
    var later := SplitLines(buf[i + 1..]);
    SplitLinesUnfold(buf);
    DispatchAllCons(line, later.lines, parse);
    DispatchAsSeq(line, parse);
  }

  lemma SplitLinesUnfold(buf: seq<byte>)
    requires Newline in buf
    ensures var i := IndexOf(buf, Newline);
            var later := SplitLines(buf[i + 1..]);
            SplitLines(buf) == Split([buf[..i]] + later.lines, later.rest)
  {
  }

  lemma DispatchAsSeq<V>(line: seq<byte>, parse: seq<byte> -> Option<V>)
    ensures var s := Strip(line);
            (match Dispatch(line, parse) case None => [] case Some(a) => [a])
            == (if s == [] then [] else [match parse(s) case None => Discard(s) case Some(v) => Play(v)])
  {
  }

  /** The inner loop of sound_server.py as written: split one line at a time. */
  method FeedLoop<V>(buffer: seq<byte>, chunk: seq<byte>, parse: seq<byte> -> Option<V>)
    returns (actions: seq<Action<V>>, rest: seq<byte>)
    ensures Newline !in rest
    ensures FeedResult(actions, rest) == Feed(buffer, chunk, parse)
  {
    ghost var goal := Feed(buffer, chunk, parse);
    rest := buffer + chunk;
    actions := [];
    while Newline in rest
      invariant actions + DispatchAll(SplitLines(rest).lines, parse) == goal.actions
      invariant SplitLines(rest).rest == goal.rest
      decreases |rest|
    {
      SplitFirstLine(rest, parse);
      var i := IndexOf(rest, Newline);
      var line := rest[..i];
      rest := rest[i + 1..];
      var stripped := Strip(line);
      if stripped == [] {
        continue;
      }
      var action := match parse(stripped)
        case None => Discard(stripped)
        case Some(v) => Play(v);
      AppendAssoc(actions, [action], DispatchAll(SplitLines(rest).lines, parse));
      actions := actions + [action];
    }
  }

  /** What one call of `conn.recv` delivers: bytes (empty when the client has
      disconnected) or a timeout. */
  datatype Recv = Data(bytes: seq<byte>) | Timeout

  datatype SessionResult<V> = SessionResult(actions: seq<Action<V>>, buffer: seq<byte>, closed: bool)

  /** The outer loop over a sequence of receive outcomes: an empty chunk ends the session,
      a timeout changes nothing, data is fed to the buffer. */
  function Session<V>(buffer: seq<byte>, recvs: seq<Recv>, parse: seq<byte> -> Option<V>): (r: SessionResult<V>)
    // the session is closed exactly when the client disconnected
    ensures r.closed <==> Data([]) in recvs
    // the receive loop never leaves a complete line in the buffer
    ensures Newline !in buffer ==> Newline !in r.buffer
    decreases |recvs|
  {
    if recvs == [] then SessionResult([], buffer, false)
    else match recvs[0]
      case Timeout => Session(buffer, recvs[1..], parse)
      case Data(d) =>
        if d == [] then SessionResult([], buffer, true)
        else
          var f := Feed(buffer, d, parse);
          var rest := Session(f.rest, recvs[1..], parse);
          SessionResult(f.actions + rest.actions, rest.buffer, rest.closed)
  }

  /** All bytes delivered by a sequence of receive outcomes, in order. */
  function Received(recvs: seq<Recv>): seq<byte>
    decreases |recvs|
  {
    if recvs == [] then []
    else (if recvs[0].Data? then recvs[0].bytes else []) + Received(recvs[1..])
  }

  predicate Open(recvs: seq<Recv>) {
    forall i :: 0 <= i < |recvs| ==> recvs[i] != Data([])
  }

  /** While the client stays connected, the server's actions and buffer depend only on the
      concatenation of the received bytes, not on how they were cut into chunks or
      interleaved with timeouts. */
  lemma {:induction false} SessionFramesConcatenation<V>(buffer: seq<byte>, recvs: seq<Recv>,
                                                         parse: seq<byte> -> Option<V>)
    requires Newline !in buffer && Open(recvs)
    ensures Session(buffer, recvs, parse)
         == SessionResult(DispatchAll(SplitLines(buffer + Received(recvs)).lines, parse),
                          SplitLines(buffer + Received(recvs)).rest, false)
    decreases |recvs|
  {
    if recvs == [] {
      assert buffer + Received(recvs) == buffer;
    } else {
      var tail := recvs[1..];
      assert Open(tail) by {
        forall i | 0 <= i < |tail| ensures tail[i] != Data([]) {
          assert tail[i] == recvs[i + 1];
        }
      }
      if recvs[0].Timeout? {
        SessionFramesConcatenation(buffer, tail, parse);
        assert Received(recvs) == Received(tail);
      } else {
        var d := recvs[0].bytes;
        ReceivedData(recvs);
        assert buffer + Received(recvs) == (buffer + d) + Received(tail);
        FramedAppend(buffer + d, Received(tail), parse);
        SessionFramesConcatenation(SplitLines(buffer + d).rest, tail, parse);
      }
    }
  }

  /** The actions and remainder for a concatenation, in two stages. */
  lemma FramedAppend<V>(x: seq<byte>, y: seq<byte>, parse: seq<byte> -> Option<V>)
    ensures var sx := SplitLines(x);
            var later := SplitLines(sx.rest + y);
            && DispatchAll(SplitLines(x + y).lines, parse)
               == DispatchAll(sx.lines, parse) + DispatchAll(later.lines, parse)
            && SplitLines(x + y).rest == later.rest
  {
    var sx := SplitLines(x);
    SplitAppend(x, y);
    DispatchAllAppend(sx.lines, SplitLines(sx.rest + y).lines, parse);
  }

  lemma ReceivedData(recvs: seq<Recv>)
    requires recvs != [] && recvs[0].Data?
    ensures Received(recvs) == recvs[0].bytes + Received(recvs[1..])
  {
  }

  /** A connected client that sends whole lines, cut into chunks in any way, has each of
      those lines handled once, in order, and leaves no partial line behind. */
  lemma SessionOfLines<V>(recvs: seq<Recv>, lines: seq<seq<byte>>, parse: seq<byte> -> Option<V>)
    requires Open(recvs) && NoNewlines(lines) && Received(recvs) == Join(lines)
    ensures Session([], recvs, parse) == SessionResult(DispatchAll(lines, parse), [], false)
  {
    SessionFramesConcatenation([], recvs, parse);
    assert [] + Received(recvs) == Join(lines) + [];
    SplitJoin(lines, []);
  }

  /** Two deliveries of the same bytes give the same tones. */
  lemma ChunkBoundariesIrrelevant<V>(r1: seq<Recv>, r2: seq<Recv>, parse: seq<byte> -> Option<V>)
    requires Open(r1) && Open(r2) && Received(r1) == Received(r2)
    ensures Session([], r1, parse) == Session([], r2, parse)
  {
    SessionFramesConcatenation([], r1, parse);
    SessionFramesConcatenation([], r2, parse);
  }

  /** An empty chunk ends the session: nothing received after it has any effect. */
  lemma {:induction false} DisconnectEndsSession<V>(buffer: seq<byte>, before: seq<Recv>, after: seq<Recv>,
                                                    parse: seq<byte> -> Option<V>)
    requires Open(before)
    ensures Session(buffer, before + [Data([])] + after, parse)
         == SessionResult(Session(buffer, before, parse).actions, Session(buffer, before, parse).buffer, true)
    decreases |before|
  {
    var all := before + [Data([])] + after;
    if before == [] {
      assert all[0] == Data([]);
    } else {
      assert all[0] == before[0];
      assert all[1..] == before[1..] + [Data([])] + after;
      match before[0]
      case Timeout =>
        DisconnectEndsSession(buffer, before[1..], after, parse);
      case Data(d) =>
        DisconnectEndsSession(Feed(buffer, d, parse).rest, before[1..], after, parse);
    }
  }

  /** The server loop as written, over a finite sequence of receive outcomes. */
  method Serve<V>(recvs: seq<Recv>, parse: seq<byte> -> Option<V>)
    returns (actions: seq<Action<V>>, buffer: seq<byte>, closed: bool)
    ensures Newline !in buffer
    ensures SessionResult(actions, buffer, closed) == Session([], recvs, parse)
  {
    actions := [];
    buffer := [];
    closed := false;
    var i := 0;
    while i < |recvs|
      invariant 0 <= i <= |recvs|
      invariant Newline !in buffer
      invariant Session([], recvs, parse) == After(actions, Session(buffer, recvs[i..], parse))
    {
      ServeStep(actions, buffer, recvs[i..], parse);
      assert recvs[i..][1..] == recvs[i + 1..];
      match recvs[i]
      case Timeout =>
        i := i + 1;
      case Data(chunk) =>
        if chunk == [] {
          closed := true;
          return;
        }
        var played, rest := FeedLoop(buffer, chunk, parse);
        actions := actions + played;
        buffer := rest;
        i := i + 1;
    }
  }

  /** A session result with the actions already taken in front of its own. */
  function After<V>(done: seq<Action<V>>, s: SessionResult<V>): SessionResult<V> {
    SessionResult(done + s.actions, s.buffer, s.closed)
  }

  /** One turn of the receive loop, seen from the actions already taken. */
  lemma ServeStep<V>(done: seq<Action<V>>, buffer: seq<byte>, recvs: seq<Recv>, parse: seq<byte> -> Option<V>)
    requires recvs != []
    ensures recvs[0].Timeout? ==> Session(buffer, recvs, parse) == Session(buffer, recvs[1..], parse)
    ensures recvs[0] == Data([]) ==> After(done, Session(buffer, recvs, parse)) == SessionResult(done, buffer, true)
    ensures recvs[0].Data? && recvs[0].bytes != [] ==>
              var f := Feed(buffer, recvs[0].bytes, parse);
              After(done, Session(buffer, recvs, parse)) == After(done + f.actions, Session(f.rest, recvs[1..], parse))
  {
    if recvs[0].Data? && recvs[0].bytes != [] {
      var f := Feed(buffer, recvs[0].bytes, parse);
      var s := Session(f.rest, recvs[1..], parse);
      assert done + (f.actions + s.actions) == (done + f.actions) + s.actions;
    }
    if recvs[0] == Data([]) {
      assert done + [] == done;
    }
  }
}

=== FILE: frequency.dfy ===
/** pi_sender.py: `map_distance_to_frequency`, which clamps a distance (cm) to the
    calibration range and interpolates linearly into the frequency range (Hz). */
module Frequency {

  const MinDistance: real := 15.0
  const MaxDistance: real := 70.0
  const MinFreq: real := 220.0
  const MaxFreq: real := 440.0

  /** `max(MIN_DISTANCE, min(MAX_DISTANCE, distance))`. */
  function Clamp(distance: real): (d: real)
    ensures MinDistance <= d <= MaxDistance
    ensures MinDistance <= distance <= MaxDistance ==> d == distance
    ensures distance <= MinDistance ==> d == MinDistance
    ensures distance >= MaxDistance ==> d == MaxDistance
  {
    var upper := if MaxDistance <= distance then MaxDistance else distance;
    if MinDistance >= upper then MinDistance else upper
  }

  /** `map_distance_to_frequency(distance)`. */
  function DistanceToFrequency(distance: real): (f: real)
    ensures MinFreq <= f <= MaxFreq
    ensures distance <= MinDistance ==> f == MinFreq
    ensures distance >= MaxDistance ==> f == MaxFreq
  {
    var d := Clamp(distance);
    (d - MinDistance) * (MaxFreq - MinFreq) / (MaxDistance - MinDistance) + MinFreq
  }

  /** Within range the slope is (440 - 220) / (70 - 15) = 4 Hz per cm. */
  lemma InRangeIsLinear(distance: real)
    requires MinDistance <= distance <= MaxDistance
    ensures DistanceToFrequency(distance) == MinFreq + 4.0 * (distance - MinDistance)
  {
  }

  /** The frequency depends only on the clamped distance. */
  lemma ClampInvariant(distance: real)
    ensures DistanceToFrequency(Clamp(distance)) == DistanceToFrequency(distance)
  {
  }

  /** The frequency is non-decreasing in the distance. */
  lemma Monotone(d1: real, d2: real)
    requires d1 <= d2
    ensures DistanceToFrequency(d1) <= DistanceToFrequency(d2)
  {
  }

  /** Strictly increasing inside the range: different positions sound different. */
  lemma StrictlyMonotoneInRange(d1: real, d2: real)
    requires MinDistance <= d1 < d2 <= MaxDistance
    ensures DistanceToFrequency(d1) < DistanceToFrequency(d2)
  {
    InRangeIsLinear(d1);
    InRangeIsLinear(d2);
  }
}

=== FILE: note_machine.dfy ===
/** therepi.py, the body of `main`'s loop: a two-state machine over `last_note`
    (silent or sounding one note) driven by the note that `map_distance_to_scale`
    returns for each reading, and emitting MIDI note events. */
module NoteMachine {
  import opened Wrappers
  import ScaleMapper

  /** Every `note_on` of therepi.py is sent with full velocity. */
  const Velocity: int := 127

  /** The MIDI messages the loop sends. */
  datatype Event = NoteOff(note: int) | NoteOn(note: int, velocity: int)

  /** The events one reading sends, in order, and the new `last_note`. */
  datatype StepResult = StepResult(events: seq<Event>, next: Option<int>)

  /** One iteration of the loop: `last` is `last_note`, `note` the mapped note. */
  function Step(last: Option<int>, note: Option<int>): (r: StepResult)
    // the state always becomes the most recently mapped note
    ensures r.next == note
    // a repeated note sends nothing
    ensures note == last ==> r.events == []
    // out of range: one NoteOff for the sounding note, nothing when silent
    ensures note.None? && last.Some? ==> r.events == [NoteOff(last.value)]
    ensures note.None? && last.None? ==> r.events == []
    // a new note: NoteOff for the old one first (if any), then NoteOn at full velocity
    ensures note.Some? && last.None? ==> r.events == [NoteOn(note.value, Velocity)]
    ensures note.Some? && last.Some? && note != last ==>
              r.events == [NoteOff(last.value), NoteOn(note.value, Velocity)]
  {
    match note
    case None =>
      if last.Some? then StepResult([NoteOff(last.value)], None)
      else StepResult([], last)
    case Some(n) =>
      if note == last then StepResult([], last)
      else if last.None? then StepResult([NoteOn(n, Velocity)], note)
      else StepResult([NoteOff(last.value), NoteOn(n, Velocity)], note)
  }

  /** The events of one step take a receiver that agrees on `last` to the new state,
      through a well-formed stream. */
  lemma StepWellFormed(last: Option<int>, note: Option<int>)
    ensures Replay(last, Step(last, note).events) == Some(note)
  {
    if note.Some? && last.Some? && note != last {
      var events := [NoteOff(last.value), NoteOn(note.value, Velocity)];
      assert events[1..] == [NoteOn(note.value, Velocity)];
      assert Replay(None, events[1..]) == Some(note);
    }
  }

  /** The events of a sequence of readings, and the final `last_note`. */
  function Run(last: Option<int>, notes: seq<Option<int>>): (r: StepResult)
    // the state after a run is the last reading's note
    ensures r.next == if notes == [] then last else notes[|notes| - 1]
    decreases |notes|
  {
    if notes == [] then StepResult([], last)
    else
      var s := Step(last, notes[0]);
      var rest := Run(s.next, notes[1..]);
      StepResult(s.events + rest.events, rest.next)
  }

  /** Running two stretches of readings one after the other is running their concatenation. */
  lemma {:induction false} RunAppend(last: Option<int>, a: seq<Option<int>>, b: seq<Option<int>>)
    ensures Run(last, a + b).events == Run(last, a).events + Run(Run(last, a).next, b).events
    ensures Run(last, a + b).next == Run(Run(last, a).next, b).next
    decreases |a|
  {
    if a == [] {
      assert a + b == b;
    } else {
      assert (a + b)[0] == a[0];
      assert (a + b)[1..] == a[1..] + b;
      RunAppend(Step(last, a[0]).next, a[1..], b);
    }
  }

  /** A receiver's view of the event stream: the note that is sounding after each event,
      or `None` if the stream is ill-formed there. A well-formed stream never starts a note
      while another sounds (at most one note at a time), only stops the note that sounds
      (every NoteOff matches the most recent unmatched NoteOn), and uses full velocity. */
  function Replay(sounding: Option<int>, events: seq<Event>): Option<Option<int>>
    decreases |events|
  {
    if events == [] then Some(sounding)
    else match events[0]
      case NoteOn(n, v) =>
        if sounding.None? && v == Velocity then Replay(Some(n), events[1..]) else None
      case NoteOff(n) =>
        if sounding == Some(n) then Replay(None, events[1..]) else None
  }

  lemma {:induction false} ReplayAppend(sounding: Option<int>, a: seq<Event>, b: seq<Event>)
    requires Replay(sounding, a).Some?
    ensures Replay(sounding, a + b) == Replay(Replay(sounding, a).value, b)
    decreases |a|
  {
    if a == [] {
      assert a + b == b;
    } else {
      assert (a + b)[0] == a[0];
      assert (a + b)[1..] == a[1..] + b;
      match a[0]
      case NoteOn(n, v) => ReplayAppend(Some(n), a[1..], b);
      case NoteOff(n) => ReplayAppend(None, a[1..], b);
    }
  }

  /** Trace invariant: whatever the readings, starting from the state the receiver is in,
      the event stream is well-formed and leaves sounding exactly the final `last_note`. */
  lemma {:induction false} RunWellFormed(last: Option<int>, notes: seq<Option<int>>)
    ensures Replay(last, Run(last, notes).events) == Some(Run(last, notes).next)
    decreases |notes|
  {
    if notes != [] {
      var s := Step(last, notes[0]);
      StepWellFormed(last, notes[0]);
      RunWellFormed(s.next, notes[1..]);
      ReplayAppend(last, s.events, Run(s.next, notes[1..]).events);
    }
  }

  /** `x` repeated `k` times. */
  function Repeat<T>(x: T, k: nat): (r: seq<T>)
    ensures |r| == k && forall i :: 0 <= i < k ==> r[i] == x
  {
    if k == 0 then [] else [x] + Repeat(x, k - 1)
  }

  /** A held note sends nothing: a run of the sounding note emits no events. */
  lemma {:induction false} HeldNoteIsSilent(n: int, k: nat)
    ensures Run(Some(n), Repeat(Some(n), k)) == StepResult([], Some(n))
  {
    if k > 0 {
      HeldNoteIsSilent(n, k - 1);
    }
  }

  /** A run of identical notes from any other state sends exactly one NoteOn for it,
      preceded by the NoteOff of the previously sounding note if there was one. */
  lemma IdenticalNotesOneNoteOn(last: Option<int>, n: int, k: nat)
    requires k > 0 && last != Some(n)
    ensures Run(last, Repeat(Some(n), k)).events
         == (if last.Some? then [NoteOff(last.value)] else []) + [NoteOn(n, Velocity)]
  {
    HeldNoteIsSilent(n, k - 1);
    assert Repeat(Some(n), k)[1..] == Repeat(Some(n), k - 1);
  }

  /** Leaving the range while sounding sends exactly one NoteOff, and nothing more
      however long the hand stays out of range. */
  lemma {:induction false} OutOfRangeOneNoteOff(n: int, k: nat)
    requires k > 0
    ensures Run(Some(n), Repeat(None, k)) == StepResult([NoteOff(n)], None)
  {
    assert Repeat<Option<int>>(None, k)[1..] == Repeat(None, k - 1);
    SilentStaysSilent(k - 1);
  }

  lemma {:induction false} SilentStaysSilent(k: nat)
    ensures Run(None, Repeat(None, k)) == StepResult([], None)
  {
    if k > 0 {
      SilentStaysSilent(k - 1);
    }
  }

  /** Number of NoteOn events in a stream. */
  function CountNoteOns(events: seq<Event>): nat
    decreases |events|
  {
    if events == [] then 0
    else (if events[0].NoteOn? then 1 else 0) + CountNoteOns(events[1..])
  }

  lemma {:induction false} CountNoteOnsAppend(a: seq<Event>, b: seq<Event>)
    ensures CountNoteOns(a + b) == CountNoteOns(a) + CountNoteOns(b)
    decreases |a|
  {
    if a == [] {
      assert a + b == b;
    } else {
      assert (a + b)[1..] == a[1..] + b;
      CountNoteOnsAppend(a[1..], b);
    }
  }

  /** Number of readings that start a note: an in-range note different from the
      reading before it (the first reading is compared with `prev`). */
  function Onsets(prev: Option<int>, notes: seq<Option<int>>): nat
    decreases |notes|
  {
    if notes == [] then 0
    else (if notes[0].Some? && notes[0] != prev then 1 else 0) + Onsets(notes[0], notes[1..])
  }

  /** One NoteOn per onset, no more and no fewer. */
  lemma {:induction false} NoteOnsCountOnsets(last: Option<int>, notes: seq<Option<int>>)
    ensures CountNoteOns(Run(last, notes).events) == Onsets(last, notes)
    decreases |notes|
  {
    if notes != [] {
      var s := Step(last, notes[0]);
      NoteOnsCountOnsets(s.next, notes[1..]);
      CountNoteOnsAppend(s.events, Run(s.next, notes[1..]).events);
      assert CountNoteOns(s.events) == if notes[0].Some? && notes[0] != last then 1 else 0;
    }
  }

  /** The loop of therepi.py's `main` over a finite sequence of distance readings,
      starting silent, with the default calibration and scale. */
  method MainLoop(distances: seq<real>) returns (sent: seq<Event>, lastNote: Option<int>)
    ensures Replay(None, sent) == Some(lastNote)
    ensures lastNote == if distances == [] then None else ScaleMapper.DefaultNote(distances[|distances| - 1])
    ensures sent == Run(None, MapNotes(distances)).events
  {
    sent := [];
    lastNote := None;
    var i := 0;
    while i < |distances|
      invariant 0 <= i <= |distances|
      invariant Run(None, MapNotes(distances[..i])) == StepResult(sent, lastNote)
      invariant lastNote == if i == 0 then None else ScaleMapper.DefaultNote(distances[i - 1])
    {
      var note := ScaleMapper.DefaultNote(distances[i]);
      var s := Step(lastNote, note);
      MainLoopStep(distances, i);
      sent := sent + s.events;
      lastNote := s.next;
      i := i + 1;
    }
    assert distances[..i] == distances;
    RunWellFormed(None, MapNotes(distances));
  }

  /** One more reading extends the run by that reading's step. */
  lemma MainLoopStep(distances: seq<real>, i: nat)
    requires i < |distances|
    ensures var before := Run(None, MapNotes(distances[..i]));
            var s := Step(before.next, ScaleMapper.DefaultNote(distances[i]));
            Run(None, MapNotes(distances[..i + 1])) == StepResult(before.events + s.events, s.next)
  {
    var note := ScaleMapper.DefaultNote(distances[i]);
    assert MapNotes(distances[..i + 1]) == MapNotes(distances[..i]) + [note] by {
      assert distances[..i + 1] == distances[..i] + [distances[i]];
      MapNotesAppend(distances[..i], [distances[i]]);
    }
    RunAppend(None, MapNotes(distances[..i]), [note]);
  }

  /** The note mapped from each reading, with the defaults. */
  function MapNotes(distances: seq<real>): (r: seq<Option<int>>)
    ensures |r| == |distances|
    // every reading gives silence or a note of the A minor scale
    ensures forall i :: 0 <= i < |r| ==> r[i].None? || r[i].value in ScaleMapper.AMinorScale
  {
    seq(|distances|, i requires 0 <= i < |distances| => ScaleMapper.DefaultNote(distances[i]))
  }

  lemma MapNotesAppend(a: seq<real>, b: seq<real>)
    ensures MapNotes(a + b) == MapNotes(a) + MapNotes(b)
  {
  }

  /** The readings 20, 20, 20, 45, 45 cm: one NoteOn for A3 (57) on the first reading,
      then NoteOff 57 and NoteOn D4 (62) when the index changes at 45 cm. */
  lemma Scenario()
    ensures Run(None, MapNotes([20.0, 20.0, 20.0, 45.0, 45.0])).events
         == [NoteOn(57, Velocity), NoteOff(57), NoteOn(62, Velocity)]
  {
    assert ScaleMapper.DefaultNote(20.0) == Some(57) by {
      assert ScaleMapper.Position(20.0, 15.0, 70.0, 7.0) == 35.0 / 55.0;
    }
    assert ScaleMapper.DefaultNote(45.0) == Some(62) by {
      assert ScaleMapper.Position(45.0, 15.0, 70.0, 7.0) == 210.0 / 55.0;
    }
    var notes := MapNotes([20.0, 20.0, 20.0, 45.0, 45.0]);
    assert notes == [Some(57), Some(57), Some(57), Some(62), Some(62)];
    assert notes[1..] == [Some(57), Some(57), Some(62), Some(62)];
    assert notes[1..][1..] == [Some(57), Some(62), Some(62)];
    assert notes[1..][1..][1..] == [Some(62), Some(62)];
    assert notes[1..][1..][1..][1..] == [Some(62)];
  }
}

=== FILE: numeric.dfy ===
/** The two conversions from a real number to an integer that the source relies on:
    Python's `int()` on a float, which truncates toward zero, and the round-half-to-even
    rule that `format(x, '.2f')` applies to the exact value of a float. */
module Numeric {

  /** `int(x)` for a float `x`: the integer part, truncated toward zero. */
  function Trunc(x: real): (r: int)
    ensures x >= 0.0 ==> r as real <= x < r as real + 1.0
    ensures x < 0.0 ==> r as real - 1.0 < x <= r as real
    ensures x >= 0.0 ==> r >= 0
  {
    if x >= 0.0 then x.Floor else -((-x).Floor)
  }

  /** Truncation is monotone: a larger real never has a smaller integer part. */
  lemma TruncMonotone(x: real, y: real)
    requires x <= y
    ensures Trunc(x) <= Trunc(y)
  {
  }

  /** Nearest integer to `x`; an exact tie goes to the even neighbour. */
  function RoundHalfEven(x: real): (r: int)
    ensures -0.5 <= x - r as real <= 0.5
    ensures x - r as real == 0.5 || x - r as real == -0.5 ==> r % 2 == 0
    ensures x >= 0.0 ==> r >= 0
  {
    var f := x.Floor;
    var d := x - f as real;
    if d < 0.5 then f
    else if d > 0.5 then f + 1
    else if f % 2 == 0 then f
    else f + 1
  }

  /** Rounding is monotone. */
  lemma RoundHalfEvenMonotone(x: real, y: real)
    requires x <= y
    ensures RoundHalfEven(x) <= RoundHalfEven(y)
  {
  }

  /** An integral real rounds to itself. */
  lemma RoundHalfEvenOfInt(n: int)
    ensures RoundHalfEven(n as real) == n
  {
  }
}

=== FILE: round_trip.dfy ===
/** The sender of pi_sender.py against the receiver of sound_server.py: whatever the
    network does to the chunking of the stream, every line the sender writes is played
    once, in order, at the frequency rounded to hundredths of a hertz. */
module RoundTrip {
  import opened Wrappers
  import opened Bytes
  import opened Frequency
  import opened WireFormat
  import opened Framing
  import opened Sender

  /** One line from the sender, fed to an empty receive buffer, is one tone and leaves
      the buffer empty. */
  lemma LineRoundTrip(distance: real)
    ensures Feed([], Line(distance), ParseFixed2) == FeedResult([Play(SentHundredths(distance))], [])
  {
    var text := LineText(distance);
    var line := Line(distance);
    var h := SentHundredths(distance);
    assert line == line[..6] + [line[6]];
    assert [] + line == Join([text]) + [] by {
      assert Join([text]) == text + [Newline] + Join([]);
    }
    TextParses(distance);
    SplitJoin([text], []);
    DispatchAllCons(text, [], ParseFixed2);
  }

  /** The text of a line strips to itself and reads back as the sent hundredths. */
  lemma TextParses(distance: real)
    ensures Newline !in LineText(distance)
    ensures Strip(LineText(distance)) == LineText(distance)
    ensures ParseFixed2(LineText(distance)) == Some(SentHundredths(distance))
  {
    FormatIsStripped(DistanceToFrequency(distance));
    ParseFormat(DistanceToFrequency(distance));
  }

  /** The hundredths carried by the lines for a sequence of readings. */
  function SentValues(distances: seq<real>): (r: seq<int>)
    ensures |r| == |distances|
    // every value is between 220.00 and 440.00 Hz
    ensures forall i :: 0 <= i < |r| ==> 22000 <= r[i] <= 44000
  {
    seq(|distances|, i requires 0 <= i < |distances| => SentHundredths(distances[i]))
  }

  /** The sender's stream splits back into exactly its line texts, with nothing left over. */
  lemma StreamSplits(distances: seq<real>)
    ensures NoNewlines(LineTexts(distances))
    ensures SplitLines(Join(LineTexts(distances))) == Split(LineTexts(distances), [])
  {
    var texts := LineTexts(distances);
    assert NoNewlines(texts) by {
      forall i | 0 <= i < |texts| ensures Newline !in texts[i] {
        TextParses(distances[i]);
      }
    }
    assert Join(texts) + [] == Join(texts);
    SplitJoin(texts, []);
  }

  /** End to end, with the receiver reading the fixed-point format: for any way of cutting
      the sender's bytes into chunks (with timeouts in between), the server plays exactly
      the sent values, in order, keeps no partial line and stays connected. */
  lemma StreamRoundTrip(distances: seq<real>, recvs: seq<Recv>)
    requires Open(recvs) && Received(recvs) == Join(LineTexts(distances))
    ensures Played(Session([], recvs, ParseFixed2).actions) == SentValues(distances)
    ensures Session([], recvs, ParseFixed2).buffer == []
    ensures !Session([], recvs, ParseFixed2).closed
  {
    var texts := LineTexts(distances);
    StreamSplits(distances);
    SessionOfLines(recvs, texts, ParseFixed2);
    forall i | 0 <= i < |texts|
      ensures Strip(texts[i]) != [] && ParseFixed2(Strip(texts[i])) == Some(SentValues(distances)[i])
    {
      TextParses(distances[i]);
    }
    EveryParsedLinePlayed(texts, SentValues(distances), ParseFixed2);
  }

  /** A number parser that reads every fixed-point text as its value in hertz, whatever
      else it accepts. Python's `float()` is one: `ParseFixed2` accepts exactly the
      `[-]D+.DD` texts, and `ParseFixed2Reads` gives each its decimal value. */
  ghost predicate ReadsFixedPoint(parse: seq<byte> -> Option<real>) {
    forall s :: ParseFixed2(s).Some? ==> parse(s) == Some(Hertz(ParseFixed2(s).value))
  }

  lemma ReadFixedPoint(parse: seq<byte> -> Option<real>, s: seq<byte>)
    requires ReadsFixedPoint(parse) && ParseFixed2(s).Some?
    ensures parse(s) == Some(Hertz(ParseFixed2(s).value))
  {
  }

  /** Such a parser reads the text of a line as the sent frequency in hertz. */
  lemma TextReadsReal(distance: real, parse: seq<byte> -> Option<real>)
    requires ReadsFixedPoint(parse)
    ensures Strip(LineText(distance)) == LineText(distance) != []
    ensures parse(LineText(distance)) == Some(Hertz(SentHundredths(distance)))
  {
    var text := LineText(distance);
    TextParses(distance);
    ReadFixedPoint(parse, text);
    assert ParseFixed2(text).value == SentHundredths(distance);
  }

  /** The frequencies, in hertz, that the lines for a sequence of readings carry. */
  function SentFrequencies(distances: seq<real>): (r: seq<real>)
    ensures |r| == |distances|
    // every frequency is between 220 and 440 Hz
    ensures forall i :: 0 <= i < |r| ==> 220.0 <= r[i] <= 440.0
  {
    seq(|distances|, i requires 0 <= i < |distances| => Hertz(SentHundredths(distances[i])))
  }

  /** With a general number parser, the server plays exactly the sent frequencies, in order. */
  lemma PlayedSentFrequencies(distances: seq<real>, recvs: seq<Recv>, parse: seq<byte> -> Option<real>)
    requires ReadsFixedPoint(parse)
    requires Open(recvs) && Received(recvs) == Join(LineTexts(distances))
    ensures Played(Session([], recvs, parse).actions) == SentFrequencies(distances)
  {
    var texts := LineTexts(distances);
    var values := SentFrequencies(distances);
    StreamSplits(distances);
    SessionOfLines(recvs, texts, parse);
    forall i | 0 <= i < |texts|
      ensures Strip(texts[i]) != [] && parse(Strip(texts[i])) == Some(values[i])
    {
      assert texts[i] == LineText(distances[i]);
      TextReadsReal(distances[i], parse);
    }
    EveryParsedLinePlayed(texts, values, parse);
  }

  /** End to end with a general number parser: each played frequency is within half a
      hundredth of a hertz of the frequency the sender computed. */
  lemma StreamRoundTripReal(distances: seq<real>, recvs: seq<Recv>, parse: seq<byte> -> Option<real>)
    requires ReadsFixedPoint(parse)
    requires Open(recvs) && Received(recvs) == Join(LineTexts(distances))
    ensures |Played(Session([], recvs, parse).actions)| == |distances|
    ensures forall i :: 0 <= i < |distances| ==>
              -0.005 <= DistanceToFrequency(distances[i]) - Played(Session([], recvs, parse).actions)[i] <= 0.005
  {
    PlayedSentFrequencies(distances, recvs, parse);
  }

  /** The bytes `220.00\n23` and then `0.00\n` give exactly the two tones 220.00 and 230.00 Hz. */
  lemma SplitChunkScenario()
    ensures Played(Session([], [Data(Ascii("220.00\n23")), Data(Ascii("0.00\n"))], ParseFixed2).actions)
         == [22000, 23000]
  {
    var recvs := [Data(Ascii("220.00\n23")), Data(Ascii("0.00\n"))];
    var a := Ascii("220.00");
    var b := Ascii("230.00");
    ScenarioBytes(recvs, a, b);
    ScenarioParses(a, b);
    TwoLinesPlayed(recvs, a, b);
  }

  /** Two well-formed lines, however the bytes were chunked, play their two values in order. */
  lemma TwoLinesPlayed(recvs: seq<Recv>, a: seq<byte>, b: seq<byte>)
    requires Open(recvs) && Received(recvs) == Join([a, b])
    requires Newline !in a && Newline !in b
    requires Strip(a) == a && ParseFixed2(a) == Some(22000)
    requires Strip(b) == b && ParseFixed2(b) == Some(23000)
    ensures Played(Session([], recvs, ParseFixed2).actions) == [22000, 23000]
  {
    assert NoNewlines([a, b]);
    SessionOfLines(recvs, [a, b], ParseFixed2);
    EveryParsedLinePlayed([a, b], [22000, 23000], ParseFixed2);
  }

  lemma ScenarioBytes(recvs: seq<Recv>, a: seq<byte>, b: seq<byte>)
    requires recvs == [Data(Ascii("220.00\n23")), Data(Ascii("0.00\n"))]
    requires a == Ascii("220.00") && b == Ascii("230.00")
    ensures Open(recvs)
    ensures Received(recvs) == Join([a, b])
  {
    assert Received(recvs[1..]) == Ascii("0.00\n") by {
      assert recvs[1..][1..] == [];
    }
    assert Join([a, b]) == a + [Newline] + (b + [Newline]) by {
      assert [a, b][1..] == [b];
      assert Join([b]) == b + [Newline] + Join([]);
    }
  }

  lemma ScenarioParses(a: seq<byte>, b: seq<byte>)
    requires a == Ascii("220.00") && b == Ascii("230.00")
    ensures Strip(a) == a && ParseFixed2(a) == Some(22000)
    ensures Strip(b) == b && ParseFixed2(b) == Some(23000)
    ensures Newline !in a && Newline !in b
  {
    assert a == [Digit(2), Digit(2), Digit(0), Dot, Zero, Zero];
    WholeHertzLine(a, 220);
    assert b == [Digit(2), Digit(3), Digit(0), Dot, Zero, Zero];
    WholeHertzLine(b, 230);
  }

  /** The text of a whole, three-digit number of hertz strips to itself and reads back. */
  lemma WholeHertzLine(t: seq<byte>, k: nat)
    requires 100 <= k < 1000
    requires t == [Digit(k / 100), Digit(k / 10 % 10), Digit(k % 10), Dot, Zero, Zero]
    ensures Strip(t) == t && ParseFixed2(t) == Some(k * 100) && Newline !in t
  {
    assert k * 100 / 100 == k && k * 100 % 100 == 0;
    assert NatDigits(k / 10) == [Digit(k / 100), Digit(k / 10 % 10)] by {
      assert k / 10 / 10 == k / 100;
    }
    assert t == UnsignedText(k * 100);
    StripNoSpace(t);
    ParseUnsignedText(k * 100);
  }
}

=== FILE: scale_mapper.dfy ===
/** therepi.py: `map_distance_to_scale`, the mapping from a measured distance (cm) to a
    MIDI note of a scale. Distances outside the calibration range give `None`; inside it
    the position in the range is scaled to an index of the scale and truncated with
    `int()`. The Python code raises on a degenerate range or an empty scale; both
    errors are part of the model. */
module ScaleMapper {
  import opened Wrappers
  import opened Numeric

  /** Default calibration range (cm) and scale of therepi.py. */
  const MinDistance: real := 15.0
  const MaxDistance: real := 70.0
  /** A minor, one octave of MIDI note numbers. */
  const AMinorScale: seq<int> := [57, 59, 60, 62, 64, 65, 67, 69]

  /** The exceptions `map_distance_to_scale` can raise. */
  datatype PyError = ZeroDivisionError | IndexError

  /** Python list indexing `s[i]`, negative indices counting from the end. */
  function PyIndex(s: seq<int>, i: int): (r: Option<int>)
    ensures r.Some? <==> -|s| <= i < |s|
    ensures 0 <= i < |s| ==> r == Some(s[i])
    ensures r.Some? ==> r.value in s
  {
    if 0 <= i < |s| then Some(s[i])
    else if -|s| <= i < 0 then Some(s[|s| + i])
    else None
  }

  /** `scale[index]`, raising `IndexError` outside the list. */
  function Index(scale: seq<int>, i: int): Result<Option<int>, PyError> {
    match PyIndex(scale, i)
    case None => Failure(IndexError)
    case Some(v) => Success(Some(v))
  }

  predicate InRange(distance: real, inMin: real, inMax: real) {
    inMin <= distance <= inMax
  }

  /** The linear position `(distance - in_min) * k / (in_max - in_min)`. */
  function Position(distance: real, inMin: real, inMax: real, k: real): real
    requires inMin < inMax
  {
    (distance - inMin) * k / (inMax - inMin)
  }

  /** The index computed by `int((distance - in_min) * (len(scale) - 1) / (in_max - in_min))`. */
  function ScaleIndex(distance: real, inMin: real, inMax: real, len: nat): int
    requires inMin < inMax
  {
    Trunc(Position(distance, inMin, inMax, (len - 1) as real))
  }

  /** Multiplying by a non-negative factor preserves order. */
  lemma MulMonotone(a: real, b: real, k: real)
    requires a <= b && k >= 0.0
    ensures a * k <= b * k
  {
    assert b * k - a * k == (b - a) * k;
  }

  /** Dividing by a positive divisor preserves order. */
  lemma DivMonotone(a: real, b: real, s: real)
    requires a <= b && s > 0.0
    ensures a / s <= b / s
  {
    assert (a / s) * s == a && (b / s) * s == b;
  }

  /** The linear position of an in-range distance lies between 0 and `k` (between `k`
      and 0 when `k` is negative, as for an empty scale, where `k` is -1). */
  lemma PositionBounds(distance: real, inMin: real, inMax: real, k: real)
    requires inMin < inMax && InRange(distance, inMin, inMax)
    ensures k >= 0.0 ==> 0.0 <= Position(distance, inMin, inMax, k) <= k
    ensures k < 0.0 ==> k <= Position(distance, inMin, inMax, k) <= 0.0
  {
    var span := inMax - inMin;
    var a := distance - inMin;
    var p := a / span;
    assert 0.0 <= p <= 1.0 by {
      DivMonotone(0.0, a, span);
      DivMonotone(a, span, span);
      assert 0.0 / span == 0.0 && span / span == 1.0;
    }
    PositionIsScaled(a, span, k);
    assert Position(distance, inMin, inMax, k) == p * k;
    ScaledBetween(p, k);
  }

  /** The position is the fraction of the range covered, scaled by `k`. */
  lemma PositionIsScaled(a: real, span: real, k: real)
    requires span > 0.0
    ensures a * k / span == (a / span) * k
  {
    var p := a / span;
    assert p * span == a;
    assert a * k == (p * k) * span;
  }

  /** A fraction between 0 and 1 of `k` lies between 0 and `k`. */
  lemma ScaledBetween(p: real, k: real)
    requires 0.0 <= p <= 1.0
    ensures k >= 0.0 ==> 0.0 <= p * k <= k
    ensures k < 0.0 ==> k <= p * k <= 0.0
  {
    if k >= 0.0 {
      MulMonotone(0.0, p, k);
      MulMonotone(p, 1.0, k);
    } else {
      MulMonotone(0.0, p, -k);
      MulMonotone(p, 1.0, -k);
    }
  }

  /** For an in-range distance and a non-empty scale the index is a valid position. */
  lemma ScaleIndexBounds(distance: real, inMin: real, inMax: real, len: nat)
    requires inMin < inMax && InRange(distance, inMin, inMax) && len > 0
    ensures 0 <= ScaleIndex(distance, inMin, inMax, len) < len
  {
    PositionBounds(distance, inMin, inMax, (len - 1) as real);
  }

  /** `map_distance_to_scale(distance, in_min, in_max, scale)`. */
  function MapDistanceToScale(distance: real, inMin: real, inMax: real, scale: seq<int>)
    : (r: Result<Option<int>, PyError>)
    ensures r == Success(None) <==> !InRange(distance, inMin, inMax)
    ensures r == Failure(ZeroDivisionError) <==> distance == inMin == inMax
    ensures r == Failure(IndexError) <==> inMin < inMax && InRange(distance, inMin, inMax) && |scale| == 0
    ensures inMin < inMax && InRange(distance, inMin, inMax) && |scale| > 0 ==>
              var i := ScaleIndex(distance, inMin, inMax, |scale|);
              0 <= i < |scale| && r == Success(Some(scale[i]))
    ensures r.Success? && r.value.Some? ==> r.value.value in scale
  {
    if distance < inMin || distance > inMax then Success(None)
    else if inMax - inMin == 0.0 then Failure(ZeroDivisionError)
    else
      var i := ScaleIndex(distance, inMin, inMax, |scale|);
      if |scale| > 0 then ScaleIndexBounds(distance, inMin, inMax, |scale|); Index(scale, i)
      else
        PositionBounds(distance, inMin, inMax, (|scale| - 1) as real);
        assert i == 0 || i == -1;
        Index(scale, i)
  }

  /** The two ends of the range map to the two ends of the scale. */
  lemma Endpoints(inMin: real, inMax: real, scale: seq<int>)
    requires inMin < inMax && |scale| > 0
    ensures MapDistanceToScale(inMin, inMin, inMax, scale) == Success(Some(scale[0]))
    ensures MapDistanceToScale(inMax, inMin, inMax, scale) == Success(Some(scale[|scale| - 1]))
  {
    var k := (|scale| - 1) as real;
    assert Position(inMin, inMin, inMax, k) == 0.0;
    assert Position(inMax, inMin, inMax, k) == k;
  }

  /** The index is non-decreasing in the distance. */
  lemma ScaleIndexMonotone(d1: real, d2: real, inMin: real, inMax: real, len: nat)
    requires inMin < inMax && d1 <= d2 && len > 0
    ensures ScaleIndex(d1, inMin, inMax, len) <= ScaleIndex(d2, inMin, inMax, len)
  {
    var span := inMax - inMin;
    var k := (len - 1) as real;
    MulMonotone(d1 - inMin, d2 - inMin, k);
    DivMonotone((d1 - inMin) * k, (d2 - inMin) * k, span);
    TruncMonotone(Position(d1, inMin, inMax, k), Position(d2, inMin, inMax, k));
  }

  predicate Ascending(s: seq<int>) {
    forall i, j :: 0 <= i <= j < |s| ==> s[i] <= s[j]
  }

  /** Over an ascending scale the note is non-decreasing in the distance. */
  lemma NoteMonotone(d1: real, d2: real, inMin: real, inMax: real, scale: seq<int>)
    requires inMin < inMax && |scale| > 0 && Ascending(scale)
    requires InRange(d1, inMin, inMax) && InRange(d2, inMin, inMax) && d1 <= d2
    ensures MapDistanceToScale(d1, inMin, inMax, scale).value.value
         <= MapDistanceToScale(d2, inMin, inMax, scale).value.value
  {
    ScaleIndexMonotone(d1, d2, inMin, inMax, |scale|);
    ScaleIndexBounds(d1, inMin, inMax, |scale|);
    ScaleIndexBounds(d2, inMin, inMax, |scale|);
  }

  /** `map_distance_to_scale(distance)` with the defaults of therepi.py: it never raises,
      so the note is just `None` or a note of A minor. */
  function DefaultNote(distance: real): (r: Option<int>)
    ensures r.None? <==> distance < MinDistance || distance > MaxDistance
    ensures r.Some? ==> r.value in AMinorScale
    ensures MapDistanceToScale(distance, MinDistance, MaxDistance, AMinorScale) == Success(r)
  {
    MapDistanceToScale(distance, MinDistance, MaxDistance, AMinorScale).value
  }

  /** The default scale is ascending, so notes rise with distance under the defaults. */
  lemma DefaultNoteMonotone(d1: real, d2: real)
    requires MinDistance <= d1 <= d2 <= MaxDistance
    ensures DefaultNote(d1).value <= DefaultNote(d2).value
  {
    assert Ascending(AMinorScale);
    NoteMonotone(d1, d2, MinDistance, MaxDistance, AMinorScale);
  }
}

=== FILE: sender.dfy ===
/** pi_sender.py, the body of `main`'s loop: each reading is mapped to a frequency and
    written to the stream as one line `f"{freq:.2f}\n"`. */
module Sender {
  import opened Bytes
  import opened Numeric
  import opened Frequency
  import opened WireFormat
  import Framing

  /** The text of the line for one reading, without its newline. */
  function LineText(distance: real): seq<byte> {
    FormatFixed2(DistanceToFrequency(distance))
  }

  /** The hundredths of a hertz that the line for one reading carries. */
  function SentHundredths(distance: real): (h: int)
    ensures 22000 <= h <= 44000
    ensures -0.005 <= DistanceToFrequency(distance) - Hertz(h) <= 0.005
  {
    var f := DistanceToFrequency(distance);
    RoundHalfEvenMonotone(22000.0, f * 100.0);
    RoundHalfEvenMonotone(f * 100.0, 44000.0);
    RoundHalfEvenOfInt(22000);
    RoundHalfEvenOfInt(44000);
    Hundredths(f)
  }

  /** Every line is exactly seven bytes, `DDD.DD` and one newline, since the frequency
      lies between 220 and 440 Hz. */
  function Line(distance: real): (r: seq<byte>)
    ensures |r| == 7 && r[6] == Newline && Newline !in r[..6]
    ensures r[..6] == LineText(distance)
  {
    var f := DistanceToFrequency(distance);
    var h := SentHundredths(distance);
    assert RoundHalfEven(f * 100.0) == h;
    ThreeDigits(h / 100);
    FormatIsStripped(f);
    LineText(distance) + [Newline]
  }

  /** The texts of the lines for a sequence of readings. */
  function LineTexts(distances: seq<real>): (r: seq<seq<byte>>)
    ensures |r| == |distances|
    // every text is six bytes, `DDD.DD`, with no newline inside
    ensures forall i :: 0 <= i < |r| ==> |r[i]| == 6 && Newline !in r[i]
  {
    forall i | 0 <= i < |distances|
      ensures |LineText(distances[i])| == 6 && Newline !in LineText(distances[i])
    {
      var l := Line(distances[i]);
    }
    seq(|distances|, i requires 0 <= i < |distances| => LineText(distances[i]))
  }

  /** The sender's loop over a finite sequence of readings: the bytes it writes. */
  method SendAll(distances: seq<real>) returns (wire: seq<byte>)
    ensures wire == Framing.Join(LineTexts(distances))
    ensures |wire| == 7 * |distances|
  {
    wire := [];
    var i := 0;
    while i < |distances|
      invariant 0 <= i <= |distances|
      invariant wire == Framing.Join(LineTexts(distances[..i]))
      invariant |wire| == 7 * i
    {
      var line := Line(distances[i]);
      assert distances[..i + 1] == distances[..i] + [distances[i]];
      JoinLinesSnoc(distances[..i], distances[i]);
      wire := wire + line;
      i := i + 1;
    }
    assert distances[..i] == distances;
  }

  /** Writing one more line appends exactly that line to the stream. */
  lemma JoinLinesSnoc(distances: seq<real>, distance: real)
    ensures Framing.Join(LineTexts(distances + [distance])) == Framing.Join(LineTexts(distances)) + Line(distance)
  {
    var line := Line(distance);
    assert LineTexts(distances + [distance]) == LineTexts(distances) + [LineText(distance)];
    Framing.JoinAppend(LineTexts(distances), [LineText(distance)]);
    assert Framing.Join([LineText(distance)]) == LineText(distance) + [Newline] + Framing.Join([]);
    assert line == line[..6] + [line[6]];
  }
}

=== FILE: wire_format.dfy ===
/** The text form of a frequency on the wire: pi_sender.py writes `f"{freq:.2f}\n"`,
    an optional minus sign, the decimal integer part without leading zeros, a dot and
    exactly two fraction digits, then a newline. The value is carried as an integer
    number of hundredths; `ParseFixed2` reads exactly that grammar back. */
module WireFormat {
  import opened Wrappers
  import opened Bytes
  import opened Numeric

  const Minus: byte := 45
  const Dot: byte := 46
  const Zero: byte := 48

  predicate IsDigit(b: byte) {
    48 <= b <= 57
  }

  predicate AllDigits(s: seq<byte>) {
    forall i :: 0 <= i < |s| ==> IsDigit(s[i])
  }

  function Digit(d: int): (b: byte)
    requires 0 <= d < 10
    ensures IsDigit(b)
  {
    Zero + d
  }

  /** The number a run of decimal digits denotes (0 for no digits). */
  function DigitsValue(s: seq<byte>): nat
    requires AllDigits(s)
    decreases |s|
  {
    if s == [] then 0 else DigitsValue(s[..|s| - 1]) * 10 + (s[|s| - 1] - Zero)
  }

  /** `str(n)` for a natural number, as ASCII bytes. */
  function NatDigits(n: nat): (r: seq<byte>)
    ensures |r| >= 1 && AllDigits(r)
    ensures DigitsValue(r) == n
    ensures |r| > 1 ==> r[0] != Zero
    decreases n
  {
    if n < 10 then [Digit(n)]
    else
      var r := NatDigits(n / 10) + [Digit(n % 10)];
      assert r[..|r| - 1] == NatDigits(n / 10);
      r
  }

  /** Three-digit numbers have three digits. */
  lemma {:induction false} ThreeDigits(n: nat)
    requires 100 <= n < 1000
    ensures |NatDigits(n)| == 3
  {
    assert |NatDigits(n / 10)| == 2 by {
      assert |NatDigits(n / 100)| == 1;
    }
  }

  /** The real value of a count of hundredths. */
  function Hertz(h: int): real {
    h as real / 100.0
  }

  /** The value `format(x, '.2f')` denotes, in hundredths: |x| rounded half-to-even at
      the second fraction digit, with the sign of x. */
  function Hundredths(x: real): (h: int)
    ensures -0.005 <= x - Hertz(h) <= 0.005
    ensures x >= 0.0 ==> h >= 0
    ensures x <= 0.0 ==> h <= 0
  {
    if x < 0.0 then -RoundHalfEven(-x * 100.0) else RoundHalfEven(x * 100.0)
  }

  /** `format(x, '.2f')`. */
  function FormatFixed2(x: real): (r: seq<byte>)
    ensures |r| >= 4
    ensures forall i :: 0 <= i < |r| ==> IsDigit(r[i]) || r[i] == Dot || r[i] == Minus
    ensures (r[0] == Minus) <==> x < 0.0
  {
    var h := RoundHalfEven(if x < 0.0 then -x * 100.0 else x * 100.0);
    (if x < 0.0 then [Minus] else []) + UnsignedText(h)
  }

  /** A number of hundredths as digits, a dot and two fraction digits. */
  function UnsignedText(h: nat): (r: seq<byte>)
    ensures |r| >= 4 && r[0] != Minus
    ensures forall i :: 0 <= i < |r| ==> IsDigit(r[i]) || r[i] == Dot
  {
    NatDigits(h / 100) + [Dot, Digit(h % 100 / 10), Digit(h % 10)]
  }

  lemma ParseUnsignedText(h: nat)
    ensures ParseUnsigned(UnsignedText(h)) == Some(h)
  {
    var body := UnsignedText(h);
    assert body[..|body| - 3] == NatDigits(h / 100);
    var frac := body[|body| - 2..];
    assert frac == [Digit(h % 100 / 10), Digit(h % 10)];
    assert frac[..1] == [Digit(h % 100 / 10)];
    assert frac[..1][..0] == [];
    assert DigitsValue(frac[..1]) == h % 100 / 10;
    assert DigitsValue(frac) == h % 100;
  }

  /** Digits, a dot and exactly two digits; the value in hundredths. */
  function ParseUnsigned(s: seq<byte>): (r: Option<nat>)
    ensures r.Some? ==> |s| >= 4 && s[|s| - 3] == Dot
    ensures r.Some? ==> AllDigits(s[..|s| - 3]) && AllDigits(s[|s| - 2..])
  {
    if |s| >= 4 && s[|s| - 3] == Dot && AllDigits(s[..|s| - 3]) && AllDigits(s[|s| - 2..]) then
      Some(DigitsValue(s[..|s| - 3]) * 100 + DigitsValue(s[|s| - 2..]))
    else None
  }

  /** The receiver-side reading of the sender's format: `[-]D+.DD` in hundredths. */
  function ParseFixed2(s: seq<byte>): (r: Option<int>)
    // only `[-]D+.DD` is read: a dot third from the end and two fraction digits ...
    ensures r.Some? ==> |s| >= 4 && s[|s| - 3] == Dot && AllDigits(s[|s| - 2..])
    // ... and digits before the dot, after an optional minus sign
    ensures r.Some? && s[0] != Minus ==> AllDigits(s[..|s| - 3])
    ensures r.Some? && s[0] == Minus ==> AllDigits(s[1..|s| - 3]) && |s| >= 5
    // a negative value is written with a minus sign, and a minus sign never gives a positive value
    ensures r.Some? && r.value < 0 ==> s[0] == Minus
    ensures r.Some? && s[0] == Minus ==> r.value <= 0
  {
    if |s| > 0 && s[0] == Minus then
      match ParseUnsigned(s[1..])
      case None => None
      case Some(v) =>
        assert s[1..][..|s| - 4] == s[1..|s| - 3];
        assert s[1..][|s| - 3..] == s[|s| - 2..];
        Some(-(v as int))
    else ParseUnsigned(s)
  }

  /** Every `D+.DD` text is read, as its decimal value in hundredths. */
  lemma UnsignedReads(d: seq<byte>, f: seq<byte>)
    requires |d| >= 1 && AllDigits(d) && |f| == 2 && AllDigits(f)
    ensures ParseUnsigned(d + [Dot] + f) == Some(DigitsValue(d) * 100 + DigitsValue(f))
  {
    var u := d + [Dot] + f;
    assert u[..|u| - 3] == d;
    assert u[|u| - 2..] == f;
    assert u[|u| - 3] == Dot;
  }

  /** The converse of `ParseFixed2`'s shape: every `[-]D+.DD` text is accepted, and reads as
      its decimal value in hundredths, negated after a minus sign. */
  lemma ParseFixed2Reads(d: seq<byte>, f: seq<byte>)
    requires |d| >= 1 && AllDigits(d) && |f| == 2 && AllDigits(f)
    ensures ParseFixed2(d + [Dot] + f) == Some(DigitsValue(d) * 100 + DigitsValue(f))
    ensures ParseFixed2([Minus] + (d + [Dot] + f)) == Some(-(DigitsValue(d) * 100 + DigitsValue(f)))
  {
    UnsignedReads(d, f);
    assert IsDigit(d[0]);
    SignedReads(d + [Dot] + f, DigitsValue(d) * 100 + DigitsValue(f));
  }

  /** An unsigned text that does not start with a minus sign reads as its value, and with a
      minus sign in front as its value negated. */
  lemma SignedReads(u: seq<byte>, v: nat)
    requires ParseUnsigned(u) == Some(v) && u[0] != Minus
    ensures ParseFixed2(u) == Some(v)
    ensures ParseFixed2([Minus] + u) == Some(-(v as int))
  {
    var t := [Minus] + u;
    assert t[1..] == u;
  }

  /** Reading the format back gives exactly the rounded value it was written from. */
  lemma ParseFormat(x: real)
    ensures ParseFixed2(FormatFixed2(x)) == Some(Hundredths(x))
  {
    var h := RoundHalfEven(if x < 0.0 then -x * 100.0 else x * 100.0);
    ParseUnsignedText(h);
    if x < 0.0 {
      assert ([Minus] + UnsignedText(h))[1..] == UnsignedText(h);
    } else {
      assert FormatFixed2(x) == UnsignedText(h);
    }
  }

  /** The format contains no whitespace, so stripping leaves it as it is. */
  lemma FormatIsStripped(x: real)
    ensures Strip(FormatFixed2(x)) == FormatFixed2(x)
    ensures Newline !in FormatFixed2(x)
  {
    StripNoSpace(FormatFixed2(x));
  }
}

=== FILE: wrappers.dfy ===
/** The two result shapes the model shares: an optional value (Python's `None` or a
    value) and a result that is either a value or a raised error. */
module Wrappers {

  /** Python's `None` or a value. */
  datatype Option<+T> = None | Some(value: T)

  /** A value, or the exception the Python code would raise instead. */
  datatype Result<+T, +E> = Success(value: T) | Failure(error: E)
}
